=== FILE: README.md ===
# RSS-to-email: one polling run, modelled in Dafny

The service reads a blog's RSS feed, keeps a JSON file (`sent-posts.json`)
listing the identities of the posts it has already emailed, and on each run
emails at most one post: the first feed item whose identity is not in that
list. The email is an HTML template with four placeholders filled in from the
post, and the subject is `New Post: <title>`. The identity is recorded, and
the file rewritten, only after the mail transport has accepted the email.

This project models that run (`index.js`) as pure functions and proves what it
guarantees: which item is chosen, how the key and the body are derived, what
the template substitution does (including JavaScript's `$` patterns in
replacement strings), and that the sent list changes only after a successful
send and only by appending. Consider runs that follow one another, each
loading the list the previous one saved, and whose send and state-file write
both succeed. Over such runs the same identity is never emailed twice. There
are three exceptions:

- A run whose email goes out but whose write fails (`DeliveredNotRecorded`)
  does not record it. If the failed write left the file as it was, the next
  run emails the same item again (`Pipeline.FailedWriteResends`). If it
  emptied or corrupted the file, the next run loads the empty list, and later
  runs re-send the feed one item per run, starting from the first
  (`Pipeline.FailedWriteEmptiedRestarts`).
- An item with neither `guid` nor `link` is emailed on every run (recorded
  under Findings).
- `index.js` takes no lock, so two runs that overlap load the same list and
  can both email the same item.

The guarantee is per identity, not per item. Items that share an identity are
emailed once between them.

Modules, one per concern of `index.js`:

- `Wrappers` (`wrappers.dfy`): `Option`, standing for `undefined` or a failed I/O step.
- `Items` (`items.dfy`): the feed item, JavaScript truthiness and `ToString`,
  `a || b || … || ''` (`FirstTruthy`), the item identity and the content fallback.
- `JsReplace` (`js_replace.dfy`): `String.prototype.replace` with a global
  literal regular expression, with `$$`, `$&`, `` $` `` and `$'` expansion.
- `SentPosts` (`sent_posts.dfy`): loading the sent list and the pending filter.
- `Mail` (`mail.dfy`): template rendering, the subject line, the email.
- `Pipeline` (`pipeline.dfy`): one run, with every effect (feed fetch, state
  file, template file, send, file write) given as an input, and a result that
  says how the run ended (`NoNewPosts` exits 0; `Aborted` and
  `DeliveredNotRecorded` exit 1; `Delivered` exits 0 after writing the file).
- `Findings` (`findings.dfy`): the identity exactly as the code computes and
  stores it.

Behaviour of `index.js` the model follows closely:

- Each run sends at most one email, directly, through the mail transport.
- An empty `guid` falls back to `link`: the key is chosen by truthiness, not by
  presence.
- The title, link, body and encoded title are inserted with `$` expansion, so
  they are inserted verbatim only when they hold no `$` pattern.
- A failed state-file write ends the run through the same `process.exit(1)`
  path as every other failure; the model still gives it its own result,
  `DeliveredNotRecorded`.

## Model

| member | source | states |
|---|---|---|
| Items.FirstTruthy | index.js:56 | `c0 \|\| c1 \|\| … \|\| ''` is `""` exactly when no candidate is a non-empty string, and otherwise the value of the first non-empty candidate |
| Items.Identity | index.js:91 | the key of an item is its `guid` when that is non-empty, else its `link` (the same expression is used again when recording, index.js:105) |
| Items.Content | index.js:56 | the body is `content:encoded` if non-empty, else `content` if non-empty, else `contentSnippet`, and is `""` exactly when all three are empty or absent |
| Items.JsString | index.js:60-68 | an absent title or link is inserted and put in the subject as the text `undefined` |
| JsReplace.Expand | index.js:59-63 | a replacement string without `$` is inserted literally |
| JsReplace.ReplaceAll | index.js:59-63 | `s.replace(/pat/g, rep)`: its contract is stated by the lemmas below. `ReplaceAllAbsent` and `ReplaceAllFirstOccurrence` fix it for a `$`-free replacement, and `Expand` gives the `$` patterns |
| JsReplace.ScanAbsent | index.js:59-63 | a string in which the pattern does not occur is returned unchanged, whatever the replacement |
| JsReplace.ReplaceAllAbsent | index.js:59-63 | `s.replace(/pat/g, rep)` is `s` when `pat` does not occur in `s` |
| JsReplace.ScanLiteral | index.js:59-63 | with a `$`-free replacement, the replacement of the remaining text does not depend on the text already scanned |
| JsReplace.ReplaceAllCopiesPrefix | index.js:59-63 | with a `$`-free replacement, the result is the text before the first occurrence of the pattern followed by the replacement of the rest |
| JsReplace.ReplaceAllKeepsPrefix | index.js:59-63 | for every replacement, `$` patterns included, the result starts with the text before the first occurrence of the pattern |
| JsReplace.ReplaceAllFirstOccurrence | index.js:59-63 | literal global replacement: the text before the leftmost occurrence is kept, that occurrence becomes the replacement, and the rest is replaced in the same way (occurrences do not overlap) |
| JsReplace.ReplaceAllSplit | index.js:59-63 | with a `$`-free replacement, when no occurrence of the pattern straddles index `k`, replacing in the whole string is replacing in the text before `k` and in the text after it |
| JsReplace.ReplaceAllWhole | index.js:59-63 | a string that is exactly the placeholder becomes the `$`-free replacement |
| SentPosts.LoadSentPosts | index.js:16-23 | a state file that is missing or cannot be read or parsed loads as the empty list; a readable one loads as the list it holds |
| SentPosts.MissingStateAllPending | index.js:16-23 | a missing or unreadable state file loads as the empty list, so every feed item is pending |
| SentPosts.Pending | index.js:91 | an item is pending exactly when it is in the feed and its identity is not in the sent list; the pending list is no longer than the feed |
| SentPosts.PendingAppend | index.js:91 | the filter keeps feed order: the pending items of a concatenated feed are those of the first part followed by those of the second |
| SentPosts.PendingSingle | index.js:91 | a one-item feed is pending exactly when the item's identity is unrecorded; with `PendingAppend` this fixes the filter completely |
| SentPosts.PendingEmpty | index.js:91-96 | nothing is pending exactly when every feed item's identity is already recorded |
| SentPosts.PendingAfterRecord | index.js:91-105 | recording an identity removes exactly the pending items with that identity, and strictly shortens the pending list when one of them had it |
| SentPosts.AppendFreshNoDuplicates | index.js:105 | appending an identity that was filtered as absent keeps a duplicate-free list duplicate-free |
| Mail.Render | index.js:59-63 | a template containing none of the four placeholders is sent unchanged, whatever the item; for a template holding one placeholder occurrence between placeholder-free text, what that placeholder becomes is stated by the four `Render…Tag` rows below |
| Mail.TagsDoNotOverlap | index.js:59-63 | none of the four placeholder strings occurs inside another one |
| Mail.PlaceholdersNeverOverlap | index.js:59-63 | in any string, an occurrence of one placeholder and an occurrence of a different one never overlap (in particular `{{POST_TITLE}}` and `{{POST_TITLE_ENCODED}}`) |
| Mail.TagAbsentAround | index.js:59-63 | a placeholder absent from the text on both sides of another placeholder is absent from the whole |
| Mail.ReplaceSkipsOtherTag | index.js:59-63 | with a `$`-free replacement, replacing one placeholder in `a + y + b`, where `y` is a different placeholder, replaces in `a` and in `b` separately and keeps `y`: the title replacement leaves every `{{POST_TITLE_ENCODED}}` in place |
| Mail.ReplaceTagAround | index.js:59-63 | a placeholder between text free of it becomes the `$`-free value, the text around it kept |
| Mail.RenderEncodedTitleTag | index.js:59-63 | in a template `a + {{POST_TITLE_ENCODED}} + b` with placeholder-free `a` and `b`, the placeholder survives the three earlier replacements and becomes the encoded title, `a` and `b` kept |
| Mail.RenderContentTag | index.js:56-62 | in a template `a + {{POST_CONTENT}} + b` with placeholder-free `a` and `b`, the placeholder becomes the resolved body (for an item with only a snippet, the snippet), `a` and `b` kept, when the body holds no `$` and the result no `{{POST_TITLE_ENCODED}}` |
| Mail.RenderLinkTag | index.js:61 | in a template `a + {{POST_LINK}} + b` with placeholder-free `a` and `b`, the placeholder becomes the link (`undefined` when absent), `a` and `b` kept, when the link holds no `$` and the result none of the later placeholders |
| Mail.RenderTitleTag | index.js:59-63 | in a template `a + {{POST_TITLE}} + b` with placeholder-free `a` and `b`, the placeholder becomes the title, `a` and `b` kept, when the title holds no `$` and the result none of the later placeholders, which are otherwise replaced inside the inserted title as well |
| Mail.DollarTitleNotLiteral | index.js:60 | the replacement is not literal: a post titled `$&` puts `{{POST_TITLE}}` itself into the email |
| Mail.Subject | index.js:68 | the subject is `New Post: ` followed by the post's title as text, so `AnnouncedTitle` reads the title back from it |
| Mail.AnnouncedTitle | index.js:68 | a subject recognised as an announcement is `New Post: ` followed by the announced title |
| Mail.Compose | index.js:59-69 | the subject announces exactly the post's title (read back by `AnnouncedTitle`), and the body is the rendered template |
| Pipeline.Run | index.js:80-116 | a run ends as `NoNewPosts` exactly when a feed was fetched and nothing is pending; it writes the state file exactly when a feed was fetched, an item was pending, the template was read and the transport accepted the email; any email it hands over is composed from the first pending item; it ends as `Delivered` only when the write succeeds |
| Pipeline.NoWorkWhenNothingPending | index.js:91-96 | a run with a feed ends as `NoNewPosts` exactly when no item is pending, i.e. when every identity is already recorded |
| Pipeline.SendsOnlyFirstPending | index.js:99-104 | a run hands at most one email to the transport, composed from the first pending item and the template |
| Pipeline.FirstRunSendsFirstItem | index.js:85-104 | with no state file, the first feed item is the one emailed |
| Pipeline.RecordOnlyAfterSuccess | index.js:72-115 | the state file is written exactly when a feed was fetched, an item was pending, the template was read and the transport accepted the email; a failed fetch or a refused send leaves it as loaded |
| Pipeline.DeliveredAppendsIdentity | index.js:104-109 | a successful run saves the loaded list with the emailed item's identity appended at the end, earlier entries unchanged, the new identity previously absent, and no duplicates introduced |
| Pipeline.DeliveredNoLongerPending | index.js:91-109 | on the next run over the same feed, the emailed identity is no longer pending, the other pending items still are, and the pending count is strictly smaller |
| Pipeline.FailedWriteResends | index.js:104-115 | after a run whose email went out but whose write failed and left the state file as it was, the next run over the same feed, state file and template hands the same email to the transport again |
| Pipeline.FailedWriteEmptiedRestarts | index.js:16-23 | after a run whose email went out but whose write emptied or corrupted the state file, the next run over the same feed and template emails the first feed item, whichever item was just sent |
| Pipeline.RerunIsQuiet | index.js:91-109 | when exactly one item was pending, an immediate rerun over the same feed sends nothing |
| Pipeline.Drain | index.js:88-109 | over consecutive successful runs on an unchanged feed, the sent list only grows at the end, by at most one identity per run, never by an identity already in it (no identity emailed twice), each new entry the identity of a feed item, and once there have been as many runs as pending items nothing is left pending |
| Findings.IdentityAsWritten | index.js:91 | as written, the key is `guid` when non-empty, else `link`, which may be `undefined` |
| Findings.IncludesAsWritten | index.js:91 | `sentPosts.includes(key)` as written: an `undefined` key is never found; a string key is found exactly when some stored entry equals it |
| Findings.PendingAsWritten | index.js:91 | as written, an item is pending exactly when its key is not found by `includes`, which never finds `undefined` |
| Findings.UnkeyedItemResent | index.js:91-109 | as written, an item with no `guid` and no `link` stays pending after it is recorded |
| Findings.UnkeyedItemExample | index.js:91-109 | a one-item feed with such an item is pending before and after recording it |
| Findings.AsWrittenAgreesWhenKeyed | index.js:91 | when every item has a `guid` or a `link`, the key and the pending list as written equal the model's |
| Findings.RecordedItemNotResent | index.js:105 | with the model's key, a recorded item is never pending again |

## Findings

| source | as written | input that shows it | evidently intended | confidence | as-written member | corrected member |
|---|---|---|---|---|---|---|
| index.js:91 | the key `item.guid \|\| item.link` is `undefined` for an item with neither field; `push` then `JSON.stringify` stores it as `null`, and `includes(undefined)` does not match `null` on the next run | a feed whose first item has no `guid` and no `link`: it is emailed, recorded as `null`, and emailed again on every later run | every item gets a key the state file can hold, e.g. `item.guid \|\| item.link \|\| ''`, so a sent item is not sent again | medium, not executed | Findings.UnkeyedItemResent | Findings.RecordedItemNotResent |

## Left out

- Fetching and parsing the feed (`rss-parser`): the feed is an input, `None` when fetching or parsing fails; the parser's output is assumed to have an `items` array of items whose fields are strings or absent.
- The mail transport (the Resend client): its answer is an input, `Accepted` or `Rejected`; a thrown exception is treated like `Rejected`. The returned `data` is not used by the code and not modelled.
- File I/O: the state file is an input (`None` when missing, unreadable or not valid JSON), the template file is an input (`None` when unreadable), and whether the final write succeeds is an input.
- A state file that is valid JSON but not an array of strings (an object, a string, numbers): the code then fails or misbehaves in ways that depend on JavaScript's method lookup; the model assumes an array of strings.
- The contents of the state file after a failed write (`DeliveredNotRecorded`): the write opens the file for writing, which empties it, so a failure may leave it intact, empty or partial. The run result does not say which; the next run's `stateFile` input does (`Some` of the old list, or `None`), and the two `FailedWrite…` lemmas cover both.
- `encodeURIComponent`: a function parameter `encode`; its `URIError` on lone surrogates is not modelled.
- JSON pretty-printing of the state file, logging, and the exit code as a number: the result datatype says which runs exit 1.
- The sender and recipient addresses: fixed configuration, not part of the email datatype.
- Items.Identity: follows the corrected key (see Findings), not the key as written; `Findings.IdentityAsWritten` is the key as written. Items that share a key are emailed once between them, and under the corrected key every item with neither `guid` nor `link` shares the key `""`.
- Overlapping runs: `index.js` takes no lock on the state file. The model treats each run on its own, and its guarantee against repeat sends assumes that each run loads what the previous one saved.

=== FILE: findings.dfy ===
/** The deduplication key exactly as index.js computes and stores it
    (index.js:19, index.js:28, index.js:91, index.js:105).

    `item.guid || item.link` is `undefined` for an item with neither field.
    `sentPosts.push(undefined)` followed by `JSON.stringify` stores `null`,
    and on the next run `includes(undefined)` does not match that `null`, so
    such an item stays pending and is emailed again on every run. The rest of
    the model uses `Items.Identity`, which maps that case to `""`. */
module Findings {
  import opened Wrappers
  import opened Items
  import opened SentPosts

  /** `item.guid || item.link`; `None` is `undefined`. */
  function IdentityAsWritten(item: Item): (id: Option<string>)
    ensures Truthy(item.guid) ==> id == item.guid
    ensures !Truthy(item.guid) ==> id == item.link
  {
    if Truthy(item.guid) then item.guid else item.link
  }

  /** One entry of the state file after a JSON round trip: a string stays a
      string, `undefined` inside an array is written as `null` (`None`). */
  type StoredKey = Option<string>

  /** `sentPosts.includes(id)`: SameValueZero never equates `undefined` with
      `null`, so an `undefined` key is never found. */
  function IncludesAsWritten(sent: seq<StoredKey>, id: Option<string>): (found: bool)
    ensures id.None? ==> !found
    ensures id.Some? ==> (found <==> exists k :: 0 <= k < |sent| && sent[k] == id)
  {
    id.Some? && id in sent
  }

  /** The pending filter over the keys as written. */
  function PendingAsWritten(feed: seq<Item>, sent: seq<StoredKey>): (r: seq<Item>)
    ensures forall x :: x in r <==> x in feed && !IncludesAsWritten(sent, IdentityAsWritten(x))
  {
    if |feed| == 0 then []
    else if IncludesAsWritten(sent, IdentityAsWritten(feed[0])) then PendingAsWritten(feed[1..], sent)
    else [feed[0]] + PendingAsWritten(feed[1..], sent)
  }

  /** As written, recording an item without `guid` and `link` does not stop it
      from being pending: the run after a successful send emails it again. */
  lemma UnkeyedItemResent(feed: seq<Item>, sent: seq<StoredKey>, x: Item)
    requires x in feed
    requires !Truthy(x.guid) && x.link.None?
    ensures x in PendingAsWritten(feed, sent)
    ensures x in PendingAsWritten(feed, sent + [IdentityAsWritten(x)])
  {
  }

  /** A concrete instance: a one-item feed whose item has no `guid` and no
      `link` is pending before and after it is recorded. */
  lemma UnkeyedItemExample()
    ensures var x := Item(None, None, Some("Hello"), None, None, Some("Hi"));
            PendingAsWritten([x], []) == [x] &&
            PendingAsWritten([x], [IdentityAsWritten(x)]) == [x]
  {
    var x := Item(None, None, Some("Hello"), None, None, Some("Hi"));
    assert [x][1..] == [];
  }

  /** Whenever an item has a `guid` or a `link`, the key as written and the
      key of the model agree, and so do the two pending filters. */
  lemma {:induction false} AsWrittenAgreesWhenKeyed(feed: seq<Item>, sent: seq<string>)
    requires forall k :: 0 <= k < |feed| ==> Truthy(feed[k].guid) || feed[k].link.Some?
    ensures forall k :: 0 <= k < |feed| ==> IdentityAsWritten(feed[k]) == Some(Identity(feed[k]))
    ensures PendingAsWritten(feed, Stored(sent)) == Pending(feed, sent)
    decreases |feed|
  {
    if |feed| > 0 {
      AsWrittenAgreesWhenKeyed(feed[1..], sent);
      assert Identity(feed[0]) in sent <==> Some(Identity(feed[0])) in Stored(sent);
    }
  }

  /** The state file holding the model's keys. */
  function Stored(sent: seq<string>): (r: seq<StoredKey>)
    ensures |r| == |sent|
    ensures forall k :: 0 <= k < |sent| ==> r[k] == Some(sent[k])
  {
    seq(|sent|, k requires 0 <= k < |sent| => Some(sent[k]))
  }

  /** With the model's key, recording an item removes it from the pending
      list for good, whatever its fields. */
  lemma RecordedItemNotResent(feed: seq<Item>, sent: seq<string>, x: Item)
    ensures x !in Pending(feed, sent + [Identity(x)])
  {
  }
}

=== FILE: items.dfy ===
/** A feed item as the feed parser hands it over, and the per-item values the
    service derives from it: the deduplication key and the body content.
    (index.js:56, index.js:91, index.js:105) */
module Items {
  import opened Wrappers

  /** One entry of the parsed feed. Every field may be absent (`undefined`). */
  datatype Item = Item(
    guid: Option<string>,
    link: Option<string>,
    title: Option<string>,
    contentEncoded: Option<string>,  // the `content:encoded` field
    content: Option<string>,
    contentSnippet: Option<string>)

  /** JavaScript truthiness of a possibly absent string: `undefined` and `""` are falsy. */
  predicate Truthy(v: Option<string>) {
    v.Some? && v.value != ""
  }

  /** JavaScript `ToString` of a possibly absent string, as used by
      `String.prototype.replace` and by template literals. */
  function JsString(v: Option<string>): (s: string)
    ensures v.Some? ==> s == v.value
    ensures v.None? ==> s == "undefined"
  {
    v.GetOr("undefined")
  }

  /** The value of `c0 || c1 || … || ''`: the first truthy candidate, else `""`. */
  function FirstTruthy(candidates: seq<Option<string>>): (r: string)
    ensures r == "" <==> forall k :: 0 <= k < |candidates| ==> !Truthy(candidates[k])
    ensures forall k :: 0 <= k < |candidates| && Truthy(candidates[k]) ==>
      (forall j :: 0 <= j < k ==> !Truthy(candidates[j])) ==> r == candidates[k].value
  {
    if |candidates| == 0 then ""
    else if Truthy(candidates[0]) then candidates[0].value
    else FirstTruthy(candidates[1..])
  }

  /** The deduplication key of an item: its `guid` when non-empty, otherwise its
      `link`. An item with neither gets the empty key (see Findings for the
      key the code as written computes in that case). */
  function Identity(item: Item): (id: string)
    ensures Truthy(item.guid) ==> id == item.guid.value
    ensures !Truthy(item.guid) ==> id == item.link.GetOr("")
  {
    var candidates := [item.guid, item.link];
    assert candidates[0] == item.guid && candidates[1] == item.link;
    FirstTruthy(candidates)
  }

  /** The body put into the email: `content:encoded`, then `content`, then
      `contentSnippet`, the first that is non-empty, else `""`. */
  function Content(item: Item): (body: string)
    ensures Truthy(item.contentEncoded) ==> body == item.contentEncoded.value
    ensures !Truthy(item.contentEncoded) && Truthy(item.content) ==> body == item.content.value
    ensures !Truthy(item.contentEncoded) && !Truthy(item.content) ==>
      body == item.contentSnippet.GetOr("")
    ensures body == "" <==>
      !Truthy(item.contentEncoded) && !Truthy(item.content) && !Truthy(item.contentSnippet)
  {
    var candidates := [item.contentEncoded, item.content, item.contentSnippet];
    assert candidates[0] == item.contentEncoded && candidates[1] == item.content;
    assert candidates[2] == item.contentSnippet;
    FirstTruthy(candidates)
  }
}

=== FILE: js_replace.dfy ===
/** `String.prototype.replace` called with a global regular expression whose
    source is a plain literal (no capture groups, no metacharacters), and a
    replacement string. (index.js:59-63)

    The replacement string is not inserted verbatim: the substitution patterns
    `$$`, `$&`, `` $` `` and `$'` are expanded at every match. With no capture
    groups, every other `$` sequence (`$1`, `$<`, a lone `$`) stays literal. */
module JsReplace {

  /** `pat` occurs in `s` starting at index `i`. */
  predicate OccursAt(s: string, pat: string, i: int) {
    0 <= i && i + |pat| <= |s| && s[i..i + |pat|] == pat
  }

  /** `pat` occurs somewhere in `s`. */
  predicate Contains(s: string, pat: string) {
    exists i :: 0 <= i <= |s| && OccursAt(s, pat, i)
  }

  /** One mismatching character rules out an occurrence at `i`. */
  lemma MismatchNotOccurs(s: string, pat: string, i: nat, m: nat)
    requires m < |pat|
    requires i + |pat| <= |s| ==> s[i + m] != pat[m]
    ensures !OccursAt(s, pat, i)
  {
    if i + |pat| <= |s| {
      assert s[i..i + |pat|][m] == s[i + m];
    }
  }

  /** The text a replacement string `rep` stands for at one match: `matched` is
      the matched text, `before` and `after` the parts of the whole subject
      string before and after the match. */
  function Expand(rep: string, matched: string, before: string, after: string): (r: string)
    ensures '$' !in rep ==> r == rep
  {
    if |rep| == 0 then ""
    else if rep[0] == '$' && |rep| >= 2 && rep[1] == '$' then
      "$" + Expand(rep[2..], matched, before, after)
    else if rep[0] == '$' && |rep| >= 2 && rep[1] == '&' then
      matched + Expand(rep[2..], matched, before, after)
    else if rep[0] == '$' && |rep| >= 2 && rep[1] == '`' then
      before + Expand(rep[2..], matched, before, after)
    else if rep[0] == '$' && |rep| >= 2 && rep[1] == '\'' then
      after + Expand(rep[2..], matched, before, after)
    else
      [rep[0]] + Expand(rep[1..], matched, before, after)
  }

  /** The global replacement scan over `rest`, the part of the subject string
      not yet scanned; `done` is the part before it. The leftmost occurrence in
      `rest` is replaced and the scan resumes right after it, so occurrences
      never overlap. */
  function Scan(rest: string, pat: string, rep: string, done: string): (r: string)
    requires |pat| > 0
    decreases |rest|
  {
    if |rest| < |pat| then rest
    else if rest[..|pat|] == pat then
      Expand(rep, pat, done, rest[|pat|..]) + Scan(rest[|pat|..], pat, rep, done + pat)
    else
      [rest[0]] + Scan(rest[1..], pat, rep, done + [rest[0]])
  }

  /** `s.replace(/pat/g, rep)`: a string in which the pattern does not occur
      comes back unchanged, whatever the replacement. */
  function ReplaceAll(s: string, pat: string, rep: string): string
    requires |pat| > 0
  {
    Scan(s, pat, rep, "")
  }

  /** A string in which the pattern does not occur comes back unchanged,
      whatever the replacement. */
  lemma {:induction false} ScanAbsent(rest: string, pat: string, rep: string, done: string)
    requires |pat| > 0
    requires !Contains(rest, pat)
    ensures Scan(rest, pat, rep, done) == rest
    decreases |rest|
  {
    if |rest| >= |pat| {
      assert !OccursAt(rest, pat, 0);
      assert !Contains(rest[1..], pat) by {
        forall j | 0 <= j <= |rest[1..]|
          ensures !OccursAt(rest[1..], pat, j)
        {
          OccursAtTail(rest, pat, j);
        }
      }
      ScanAbsent(rest[1..], pat, rep, done + [rest[0]]);
    }
  }

  /** `ReplaceAll` leaves a string without the pattern unchanged. */
  lemma ReplaceAllAbsent(s: string, pat: string, rep: string)
    requires |pat| > 0
    requires !Contains(s, pat)
    ensures ReplaceAll(s, pat, rep) == s
  {
    ScanAbsent(s, pat, rep, "");
  }

  /** With a `$`-free replacement the result does not depend on the text
      already scanned. */
  lemma {:induction false} ScanLiteral(rest: string, pat: string, rep: string, done: string)
    requires |pat| > 0
    requires '$' !in rep
    ensures Scan(rest, pat, rep, done) == ReplaceAll(rest, pat, rep)
    decreases |rest|
  {
    if |rest| < |pat| {
    } else if rest[..|pat|] == pat {
      ScanLiteral(rest[|pat|..], pat, rep, done + pat);
      ScanLiteral(rest[|pat|..], pat, rep, "" + pat);
    } else {
      ScanLiteral(rest[1..], pat, rep, done + [rest[0]]);
      ScanLiteral(rest[1..], pat, rep, "" + [rest[0]]);
    }
  }

  /** Dropping the first character shifts every occurrence one to the left. */
  lemma OccursAtTail(rest: string, pat: string, j: nat)
    requires |rest| > 0
    ensures OccursAt(rest[1..], pat, j) <==> OccursAt(rest, pat, j + 1)
  {
    if j + 1 + |pat| <= |rest| {
      assert rest[1..][j..j + |pat|] == rest[j + 1..j + 1 + |pat|];
    }
  }

  /** Where the pattern does not start, one character is copied through. */
  lemma ScanSkip(rest: string, pat: string, rep: string, done: string)
    requires |pat| > 0
    requires |rest| > 0
    requires !OccursAt(rest, pat, 0)
    ensures Scan(rest, pat, rep, done) == [rest[0]] + Scan(rest[1..], pat, rep, done + [rest[0]])
  {
    if |rest| < |pat| {
      assert rest == [rest[0]] + rest[1..];
    }
  }

  /** One step of literal replacement where the pattern does not start. */
  lemma ReplaceAllSkip(s: string, pat: string, rep: string)
    requires |pat| > 0
    requires '$' !in rep
    requires |s| > 0 && !OccursAt(s, pat, 0)
    ensures ReplaceAll(s, pat, rep) == [s[0]] + ReplaceAll(s[1..], pat, rep)
  {
    ScanSkip(s, pat, rep, "");
    ScanLiteral(s[1..], pat, rep, "" + [s[0]]);
  }

  /** With a `$`-free replacement, text before the first occurrence is copied
      through unchanged. */
  lemma {:induction false} ReplaceAllCopiesPrefix(s: string, pat: string, rep: string, k: nat)
    requires |pat| > 0
    requires '$' !in rep
    requires k <= |s|
    requires forall j :: 0 <= j < k ==> !OccursAt(s, pat, j)
    ensures ReplaceAll(s, pat, rep) == s[..k] + ReplaceAll(s[k..], pat, rep)
    decreases k
  {
    if k == 0 {
      assert s[k..] == s;
    } else {
      var tail := s[1..];
      ReplaceAllSkip(s, pat, rep);
      forall j | 0 <= j < k - 1
        ensures !OccursAt(tail, pat, j)
      {
        OccursAtTail(s, pat, j);
      }
      ReplaceAllCopiesPrefix(tail, pat, rep, k - 1);
      assert tail[k - 1..] == s[k..];
      assert [s[0]] + tail[..k - 1] == s[..k];
    }
  }

  /** For every replacement, `$` patterns included, the scan copies the text
      before the first occurrence of the pattern through unchanged. */
  lemma {:induction false} ScanKeepsPrefix(rest: string, pat: string, rep: string, done: string, k: nat)
    requires |pat| > 0
    requires k <= |rest|
    requires forall j :: 0 <= j < k ==> !OccursAt(rest, pat, j)
    ensures k <= |Scan(rest, pat, rep, done)|
    ensures Scan(rest, pat, rep, done)[..k] == rest[..k]
    decreases k
  {
    if k > 0 {
      ScanSkip(rest, pat, rep, done);
      forall j | 0 <= j < k - 1
        ensures !OccursAt(rest[1..], pat, j)
      {
        OccursAtTail(rest, pat, j);
      }
      ScanKeepsPrefix(rest[1..], pat, rep, done + [rest[0]], k - 1);
      var t := Scan(rest[1..], pat, rep, done + [rest[0]]);
      assert ([rest[0]] + t)[..k] == [rest[0]] + t[..k - 1];
      assert rest[..k] == [rest[0]] + rest[1..][..k - 1];
    }
  }

  /** `s.replace(/pat/g, rep)` starts with the text of `s` before the first
      occurrence of `pat`, whatever `rep` is. */
  lemma ReplaceAllKeepsPrefix(s: string, pat: string, rep: string, k: nat)
    requires |pat| > 0
    requires k <= |s|
    requires forall j :: 0 <= j < k ==> !OccursAt(s, pat, j)
    ensures k <= |ReplaceAll(s, pat, rep)| && ReplaceAll(s, pat, rep)[..k] == s[..k]
  {
    ScanKeepsPrefix(s, pat, rep, "", k);
  }

  /** Literal replacement, stated through the first occurrence: everything
      before it is kept, the occurrence becomes `rep`, and the rest of the
      string is replaced in the same way. */
  lemma ReplaceAllFirstOccurrence(s: string, pat: string, rep: string, k: nat)
    requires |pat| > 0
    requires '$' !in rep
    requires OccursAt(s, pat, k)
    requires forall j :: 0 <= j < k ==> !OccursAt(s, pat, j)
    ensures ReplaceAll(s, pat, rep) == s[..k] + rep + ReplaceAll(s[k + |pat|..], pat, rep)
  {
    ReplaceAllCopiesPrefix(s, pat, rep, k);
    var rest := s[k..];
    assert rest[..|pat|] == pat;
    assert rest[|pat|..] == s[k + |pat|..];
    ScanLiteral(rest[|pat|..], pat, rep, "" + pat);
  }

  /** A string that is exactly the pattern becomes the (`$`-free) replacement. */
  lemma ReplaceAllWhole(pat: string, rep: string)
    requires |pat| > 0
    requires '$' !in rep
    ensures ReplaceAll(pat, pat, rep) == rep
  {
    assert pat[..|pat|] == pat;
    assert pat[|pat|..] == "";
    assert Scan("", pat, rep, "" + pat) == "";
  }

  /** A pattern opening with `{{` does not occur in a string whose only `{`
      characters are its first two, provided they differ at index `m`
      (when the pattern fits at all). */
  lemma BracedAbsent(s: string, pat: string, m: nat)
    requires |pat| >= 2 && pat[0] == '{' && pat[1] == '{'
    requires |s| >= 2 && s[0] == '{' && s[1] == '{'
    requires forall k :: 2 <= k < |s| ==> s[k] != '{'
    requires m < |pat|
    requires |pat| <= |s| ==> s[m] != pat[m]
    ensures !Contains(s, pat)
  {
    forall i | 0 <= i <= |s|
      ensures !OccursAt(s, pat, i)
    {
      if i == 0 {
        MismatchNotOccurs(s, pat, 0, m);
      } else if i == 1 {
        MismatchNotOccurs(s, pat, 1, 1);
      } else {
        MismatchNotOccurs(s, pat, i, 0);
      }
    }
  }

  /** An occurrence fixes every character it covers. */
  lemma OccursAtChar(s: string, pat: string, i: int, m: nat)
    requires OccursAt(s, pat, i)
    requires m < |pat|
    ensures s[i + m] == pat[m]
  {
    assert s[i..i + |pat|][m] == s[i + m];
  }

  /** Dropping the first `d` characters shifts every occurrence `d` to the left. */
  lemma OccursAtDrop(s: string, pat: string, d: nat, j: nat)
    requires d <= |s|
    ensures OccursAt(s[d..], pat, j) <==> OccursAt(s, pat, j + d)
  {
    if j + d + |pat| <= |s| {
      assert s[d..][j..j + |pat|] == s[j + d..j + d + |pat|];
    }
  }

  /** Cutting the string at `k` keeps every occurrence that ends by `k`. */
  lemma OccursAtTake(s: string, pat: string, k: nat, j: nat)
    requires k <= |s|
    requires j + |pat| <= k
    ensures OccursAt(s[..k], pat, j) <==> OccursAt(s, pat, j)
  {
    assert s[..k][j..j + |pat|] == s[j..j + |pat|];
  }

  /** No occurrence of `pat` in `s` starts before index `k` and ends after it. */
  predicate NoneAcross(s: string, pat: string, k: int) {
    forall j :: 0 <= j < k < j + |pat| ==> !OccursAt(s, pat, j)
  }

  /** One step of literal replacement where the pattern starts. */
  lemma ReplaceAllMatch(s: string, pat: string, rep: string)
    requires |pat| > 0
    requires '$' !in rep
    requires OccursAt(s, pat, 0)
    ensures ReplaceAll(s, pat, rep) == rep + ReplaceAll(s[|pat|..], pat, rep)
  {
    ReplaceAllFirstOccurrence(s, pat, rep, 0);
    assert s[..0] == "";
  }

  /** Dropping `d` characters keeps "no occurrence straddles `k`", at `k - d`. */
  lemma NoneAcrossDrop(s: string, pat: string, d: nat, k: nat)
    requires d <= k <= |s|
    requires NoneAcross(s, pat, k)
    ensures NoneAcross(s[d..], pat, k - d)
  {
    forall j | 0 <= j < k - d < j + |pat|
      ensures !OccursAt(s[d..], pat, j)
    {
      OccursAtDrop(s, pat, d, j);
    }
  }

  /** The sequence bookkeeping of one step of `ReplaceAllSplit`: both sides
      start with the same `head` produced from the first `d` characters. */
  lemma SplitCompose(s: string, pat: string, rep: string, head: string, k: nat, d: nat)
    requires |pat| > 0
    requires d <= k <= |s|
    requires ReplaceAll(s, pat, rep) == head + ReplaceAll(s[d..], pat, rep)
    requires ReplaceAll(s[..k], pat, rep) == head + ReplaceAll(s[..k][d..], pat, rep)
    requires ReplaceAll(s[d..], pat, rep) ==
      ReplaceAll(s[d..][..k - d], pat, rep) + ReplaceAll(s[d..][k - d..], pat, rep)
    ensures ReplaceAll(s, pat, rep) == ReplaceAll(s[..k], pat, rep) + ReplaceAll(s[k..], pat, rep)
  {
    assert s[..k][d..] == s[d..][..k - d];
    assert s[d..][k - d..] == s[k..];
    var front, back := ReplaceAll(s[d..][..k - d], pat, rep), ReplaceAll(s[k..], pat, rep);
    assert head + (front + back) == (head + front) + back;
  }

  /** Literal replacement works piecewise: when no occurrence straddles index
      `k`, replacing in `s` is replacing in `s[..k]` and in `s[k..]`. */
  lemma {:induction false} ReplaceAllSplit(s: string, pat: string, rep: string, k: nat)
    requires |pat| > 0
    requires '$' !in rep
    requires k <= |s|
    requires NoneAcross(s, pat, k)
    ensures ReplaceAll(s, pat, rep) == ReplaceAll(s[..k], pat, rep) + ReplaceAll(s[k..], pat, rep)
    decreases |s|, 1
  {
    if k == 0 {
      assert s[..k] == "" && s[k..] == s;
    } else if OccursAt(s, pat, 0) {
      SplitAfterMatch(s, pat, rep, k);
    } else {
      SplitAfterSkip(s, pat, rep, k);
    }
  }

  /** `ReplaceAllSplit` when the pattern starts the string: the occurrence
      cannot straddle `k`, so it ends by `k` and both sides begin with `rep`. */
  lemma {:induction false} SplitAfterMatch(s: string, pat: string, rep: string, k: nat)
    requires |pat| > 0
    requires '$' !in rep
    requires 0 < k <= |s|
    requires NoneAcross(s, pat, k)
    requires OccursAt(s, pat, 0)
    ensures ReplaceAll(s, pat, rep) == ReplaceAll(s[..k], pat, rep) + ReplaceAll(s[k..], pat, rep)
    decreases |s|, 0
  {
    OccursAtTake(s, pat, k, 0);
    ReplaceAllMatch(s, pat, rep);
    ReplaceAllMatch(s[..k], pat, rep);
    NoneAcrossDrop(s, pat, |pat|, k);
    ReplaceAllSplit(s[|pat|..], pat, rep, k - |pat|);
    SplitCompose(s, pat, rep, rep, k, |pat|);
  }

  /** `ReplaceAllSplit` when the pattern does not start the string: both
      sides begin with the first character. */
  lemma {:induction false} SplitAfterSkip(s: string, pat: string, rep: string, k: nat)
    requires |pat| > 0
    requires '$' !in rep
    requires 0 < k <= |s|
    requires NoneAcross(s, pat, k)
    requires !OccursAt(s, pat, 0)
    ensures ReplaceAll(s, pat, rep) == ReplaceAll(s[..k], pat, rep) + ReplaceAll(s[k..], pat, rep)
    decreases |s|, 0
  {
    if |pat| <= k {
      OccursAtTake(s, pat, k, 0);
    }
    ReplaceAllSkip(s, pat, rep);
    ReplaceAllSkip(s[..k], pat, rep);
    NoneAcrossDrop(s, pat, 1, k);
    ReplaceAllSplit(s[1..], pat, rep, k - 1);
    SplitCompose(s, pat, rep, [s[0]], k, 1);
  }

  /** `ReplaceAllSplit` for a string given as two parts. */
  lemma ReplaceAllConcat(a: string, c: string, pat: string, rep: string)
    requires |pat| > 0
    requires '$' !in rep
    requires NoneAcross(a + c, pat, |a|)
    ensures ReplaceAll(a + c, pat, rep) == ReplaceAll(a, pat, rep) + ReplaceAll(c, pat, rep)
  {
    ReplaceAllSplit(a + c, pat, rep, |a|);
    assert (a + c)[..|a|] == a && (a + c)[|a|..] == c;
  }
}

=== FILE: mail.dfy ===
/** `sendEmail`: the subject line and the HTML body built from the template
    for one feed item. (index.js:42-77) */
module Mail {
  import opened Wrappers
  import opened Items
  import opened JsReplace

  const TitleTag := "{{POST_TITLE}}"
  const LinkTag := "{{POST_LINK}}"
  const ContentTag := "{{POST_CONTENT}}"
  const EncodedTitleTag := "{{POST_TITLE_ENCODED}}"
  const SubjectPrefix := "New Post: "

  /** The message handed to the mail transport. Sender and recipient are fixed
      configuration and are not part of the model. */
  datatype Email = Email(subject: string, html: string)

  /** None of the four placeholders occurs in `s`. */
  predicate NoTags(s: string) {
    !Contains(s, TitleTag) && !Contains(s, LinkTag) &&
    !Contains(s, ContentTag) && !Contains(s, EncodedTitleTag)
  }

  /** The template with the four placeholders replaced, one after the other:
      title, link, content, then the URL-encoded title. `encode` stands for
      `encodeURIComponent`. */
  function Render(template: string, item: Item, encode: string -> string): (html: string)
    ensures NoTags(template) ==> html == template
  {
    assert NoTags(template) ==> RenderSteps(template, item, encode) == template by {
      if NoTags(template) {
        ReplaceAllAbsent(template, TitleTag, JsString(item.title));
        ReplaceAllAbsent(template, LinkTag, JsString(item.link));
        ReplaceAllAbsent(template, ContentTag, Content(item));
        ReplaceAllAbsent(template, EncodedTitleTag, encode(JsString(item.title)));
      }
    }
    RenderSteps(template, item, encode)
  }

  /** The four replacements of `Render`, in order. */
  function RenderSteps(template: string, item: Item, encode: string -> string): string {
    var t1 := ReplaceAll(template, TitleTag, JsString(item.title));
    var t2 := ReplaceAll(t1, LinkTag, JsString(item.link));
    var t3 := ReplaceAll(t2, ContentTag, Content(item));
    ReplaceAll(t3, EncodedTitleTag, encode(JsString(item.title)))
  }

  /** The subject line `New Post: ${post.title}`. */
  function Subject(item: Item): (subject: string)
    ensures AnnouncedTitle(subject) == Some(JsString(item.title))
  {
    var subject := SubjectPrefix + JsString(item.title);
    assert subject[..|SubjectPrefix|] == SubjectPrefix;
    assert subject[|SubjectPrefix|..] == JsString(item.title);
    subject
  }

  /** The title a subject line announces, if it has the subject's shape. */
  function AnnouncedTitle(subject: string): (title: Option<string>)
    ensures title.Some? ==> subject == SubjectPrefix + title.value
  {
    if |subject| >= |SubjectPrefix| && subject[..|SubjectPrefix|] == SubjectPrefix
    then Some(subject[|SubjectPrefix|..])
    else None
  }

  /** The email for one item. */
  function Compose(template: string, item: Item, encode: string -> string): (e: Email)
    ensures AnnouncedTitle(e.subject) == Some(JsString(item.title))
    ensures e.html == Render(template, item, encode)
  {
    Email(Subject(item), Render(template, item, encode))
  }

  /** No placeholder string occurs inside another one; `{{POST_TITLE}}` is
      not in `{{POST_TITLE_ENCODED}}` because the character after
      `{{POST_TITLE` there is `_`, not `}`. */
  lemma TagsDoNotOverlap()
    ensures !Contains(EncodedTitleTag, TitleTag)
    ensures !Contains(EncodedTitleTag, LinkTag)
    ensures !Contains(EncodedTitleTag, ContentTag)
    ensures !Contains(ContentTag, TitleTag)
    ensures !Contains(ContentTag, LinkTag)
    ensures !Contains(ContentTag, EncodedTitleTag)
    ensures !Contains(TitleTag, LinkTag)
    ensures !Contains(TitleTag, ContentTag)
    ensures !Contains(TitleTag, EncodedTitleTag)
    ensures !Contains(LinkTag, TitleTag)
    ensures !Contains(LinkTag, ContentTag)
    ensures !Contains(LinkTag, EncodedTitleTag)
  {
    assert forall k :: 2 <= k < |EncodedTitleTag| ==> EncodedTitleTag[k] != '{';
    assert forall k :: 2 <= k < |ContentTag| ==> ContentTag[k] != '{';
    assert forall k :: 2 <= k < |TitleTag| ==> TitleTag[k] != '{';
    assert forall k :: 2 <= k < |LinkTag| ==> LinkTag[k] != '{';
    BracedAbsent(EncodedTitleTag, TitleTag, 12);
    BracedAbsent(EncodedTitleTag, LinkTag, 7);
    BracedAbsent(EncodedTitleTag, ContentTag, 7);
    BracedAbsent(ContentTag, TitleTag, 7);
    BracedAbsent(ContentTag, LinkTag, 7);
    BracedAbsent(ContentTag, EncodedTitleTag, 0);
    BracedAbsent(TitleTag, LinkTag, 7);
    BracedAbsent(TitleTag, ContentTag, 0);
    BracedAbsent(TitleTag, EncodedTitleTag, 0);
    BracedAbsent(LinkTag, TitleTag, 0);
    BracedAbsent(LinkTag, ContentTag, 0);
    BracedAbsent(LinkTag, EncodedTitleTag, 0);
  }

  /** One of the four placeholders. */
  predicate IsTag(x: string) {
    x == TitleTag || x == LinkTag || x == ContentTag || x == EncodedTitleTag
  }

  /** The shape shared by the placeholders: `{{` and then no other `{`. */
  predicate Braced(x: string) {
    13 <= |x| && x[0] == '{' && x[1] == '{' && forall k :: 2 <= k < |x| ==> x[k] != '{'
  }

  /** Two placeholder-shaped strings that differ at index 7 or 12. */
  predicate Apart(x: string, y: string) {
    13 <= |x| && 13 <= |y| && (x[7] != y[7] || x[12] != y[12])
  }

  /** Every placeholder is `Braced`, and two different ones are `Apart`: they
      differ at index 7 (`T`, `L`, `C`) or, for `{{POST_TITLE}}` and
      `{{POST_TITLE_ENCODED}}`, at index 12 (`}`, `_`). */
  lemma TagFacts(x: string, y: string)
    requires IsTag(x) && IsTag(y)
    ensures Braced(x) && Braced(y)
    ensures x != y ==> Apart(x, y)
  {
    assert forall k :: 2 <= k < |TitleTag| ==> TitleTag[k] != '{';
    assert forall k :: 2 <= k < |LinkTag| ==> LinkTag[k] != '{';
    assert forall k :: 2 <= k < |ContentTag| ==> ContentTag[k] != '{';
    assert forall k :: 2 <= k < |EncodedTitleTag| ==> EncodedTitleTag[k] != '{';
    assert TitleTag[7] == 'T' && TitleTag[12] == '}';
    assert LinkTag[7] == 'L';
    assert ContentTag[7] == 'C';
    assert EncodedTitleTag[7] == 'T' && EncodedTitleTag[12] == '_';
  }

  /** Where `y` occurs at `i`, no `x` starts at a position `j` overlapping
      it, unless it is that same occurrence of the same placeholder. */
  lemma NotOccursNear(s: string, x: string, y: string, i: nat, j: int)
    requires Braced(x) && Braced(y)
    requires OccursAt(s, y, i)
    requires j < i + |y| && i < j + |x|
    requires Apart(x, y) || j != i
    ensures !OccursAt(s, x, j)
  {
    OccursAtChar(s, y, i, 0);
    OccursAtChar(s, y, i, 1);
    OccursAtChar(s, y, i, 2);
    if j < 0 {
    } else if j == i {
      OccursAtChar(s, y, i, 7);
      OccursAtChar(s, y, i, 12);
      MismatchNotOccurs(s, x, j, if x[7] != y[7] then 7 else 12);
    } else if j < i {
      if i - j == 1 {
        MismatchNotOccurs(s, x, j, 2);
      } else {
        MismatchNotOccurs(s, x, j, i - j);
      }
    } else if j - i == 1 {
      MismatchNotOccurs(s, x, j, 1);
    } else {
      OccursAtChar(s, y, i, j - i);
      MismatchNotOccurs(s, x, j, 0);
    }
  }

  /** Occurrences of two different placeholders never overlap; in particular
      a `{{POST_TITLE}}` is never part of a `{{POST_TITLE_ENCODED}}`. */
  lemma PlaceholdersNeverOverlap(s: string, x: string, y: string, i: nat, j: nat)
    requires IsTag(x) && IsTag(y) && x != y
    requires OccursAt(s, x, i) && OccursAt(s, y, j)
    ensures i + |x| <= j || j + |y| <= i
  {
    TagFacts(x, y);
    if j < i + |x| && i < j + |y| {
      NotOccursNear(s, y, x, i, j);
    }
  }

  /** `x` absent from `a` and from `b` is absent from `a + y + b` when `y`
      is apart from it. */
  lemma AbsentAround(a: string, y: string, b: string, x: string)
    requires Braced(x) && Braced(y) && Apart(x, y)
    requires !Contains(a, x) && !Contains(b, x)
    ensures !Contains(a + y + b, x)
  {
    var s := a + y + b;
    var i := |a|;
    assert s[i..i + |y|] == y;
    assert s[..i] == a;
    assert s[i + |y|..] == b;
    forall j | 0 <= j <= |s|
      ensures !OccursAt(s, x, j)
    {
      if j + |x| <= i {
        OccursAtTake(s, x, i, j);
      } else if i + |y| <= j {
        OccursAtDrop(s, x, i + |y|, j - (i + |y|));
      } else {
        NotOccursNear(s, x, y, i, j);
      }
    }
  }

  /** A placeholder absent from `a` and from `b` is absent from `a + y + b`
      for a different placeholder `y`. */
  lemma TagAbsentAround(a: string, y: string, b: string, x: string)
    requires IsTag(x) && IsTag(y) && x != y
    requires !Contains(a, x) && !Contains(b, x)
    ensures !Contains(a + y + b, x)
  {
    TagFacts(x, y);
    AbsentAround(a, y, b, x);
  }

  /** No occurrence of `x` straddles either end of an occurrence of `y`. */
  lemma Boundaries(s: string, x: string, y: string, i: nat)
    requires Braced(x) && Braced(y) && (x == y || Apart(x, y))
    requires OccursAt(s, y, i)
    ensures NoneAcross(s, x, i) && NoneAcross(s, x, i + |y|)
  {
    forall j | 0 <= j < i < j + |x|
      ensures !OccursAt(s, x, j)
    {
      NotOccursNear(s, x, y, i, j);
    }
    forall j | 0 <= j < i + |y| < j + |x|
      ensures !OccursAt(s, x, j)
    {
      NotOccursNear(s, x, y, i, j);
    }
  }

  /** A string opening with `y` keeps it when an `x` apart from it is
      replaced in the text after it. */
  lemma ReplaceAfterApart(y: string, b: string, x: string, rep: string)
    requires Braced(x) && Braced(y) && Apart(x, y)
    requires '$' !in rep
    ensures ReplaceAll(y + b, x, rep) == y + ReplaceAll(b, x, rep)
  {
    assert (y + b)[0..|y|] == y;
    Boundaries(y + b, x, y, 0);
    ReplaceAllConcat(y, b, x, rep);
    assert !Contains(y, x) by {
      forall j | 0 <= j <= |y|
        ensures !OccursAt(y, x, j)
      {
        assert y[0..|y|] == y;
        if j < |y| {
          NotOccursNear(y, x, y, 0, j);
        }
      }
    }
    ReplaceAllAbsent(y, x, rep);
  }

  /** `ReplaceSkipsOtherTag` for any two strings apart from each other. */
  lemma ReplaceAroundApart(a: string, y: string, b: string, x: string, rep: string)
    requires Braced(x) && Braced(y) && Apart(x, y)
    requires '$' !in rep
    ensures ReplaceAll(a + y + b, x, rep) ==
      ReplaceAll(a, x, rep) + y + ReplaceAll(b, x, rep)
  {
    var c := y + b;
    var front, back := ReplaceAll(a, x, rep), ReplaceAll(b, x, rep);
    assert ReplaceAll(a + c, x, rep) == front + ReplaceAll(c, x, rep) by {
      assert (a + c)[|a|..|a| + |y|] == y;
      Boundaries(a + c, x, y, |a|);
      ReplaceAllConcat(a, c, x, rep);
    }
    assert ReplaceAll(c, x, rep) == y + back by {
      ReplaceAfterApart(y, b, x, rep);
    }
    assert a + y + b == a + c;
    assert front + (y + back) == front + y + back;
  }

  /** With a `$`-free replacement, text on either side of placeholder `y`
      has a different placeholder `x` replaced independently, and `y` itself
      is kept. In particular replacing `{{POST_TITLE}}` never touches a
      `{{POST_TITLE_ENCODED}}`. (With `` $` `` or `$'` in the replacement
      each match expands to text on the other side of `y`.) */
  lemma ReplaceSkipsOtherTag(a: string, y: string, b: string, x: string, rep: string)
    requires IsTag(x) && IsTag(y) && x != y
    requires '$' !in rep
    ensures ReplaceAll(a + y + b, x, rep) ==
      ReplaceAll(a, x, rep) + y + ReplaceAll(b, x, rep)
  {
    TagFacts(x, y);
    ReplaceAroundApart(a, y, b, x, rep);
  }

  /** A placeholder between text that does not contain it is replaced by the
      (`$`-free) value and the text around it is kept. */
  lemma ReplaceTagAround(a: string, x: string, b: string, rep: string)
    requires Braced(x)
    requires '$' !in rep
    requires !Contains(a, x) && !Contains(b, x)
    ensures ReplaceAll(a + x + b, x, rep) == a + rep + b
  {
    var c := x + b;
    assert a + x + b == a + c;
    assert (a + c)[|a|..|a| + |x|] == x;
    Boundaries(a + c, x, x, |a|);
    ReplaceAllConcat(a, c, x, rep);
    assert c[0..|x|] == x;
    ReplaceAllMatch(c, x, rep);
    assert c[|x|..] == b;
    ReplaceAllAbsent(a, x, rep);
    ReplaceAllAbsent(b, x, rep);
  }

  /** `{{POST_TITLE_ENCODED}}` between placeholder-free text renders to the
      encoded title with that text kept: the three earlier replacements leave
      it alone. */
  lemma RenderEncodedTitleTag(a: string, b: string, item: Item, encode: string -> string)
    requires NoTags(a) && NoTags(b)
    requires '$' !in encode(JsString(item.title))
    ensures Render(a + EncodedTitleTag + b, item, encode) == a + encode(JsString(item.title)) + b
  {
    var s := a + EncodedTitleTag + b;
    TagAbsentAround(a, EncodedTitleTag, b, TitleTag);
    TagAbsentAround(a, EncodedTitleTag, b, LinkTag);
    TagAbsentAround(a, EncodedTitleTag, b, ContentTag);
    ReplaceAllAbsent(s, TitleTag, JsString(item.title));
    ReplaceAllAbsent(s, LinkTag, JsString(item.link));
    ReplaceAllAbsent(s, ContentTag, Content(item));
    TagFacts(EncodedTitleTag, EncodedTitleTag);
    ReplaceTagAround(a, EncodedTitleTag, b, encode(JsString(item.title)));
  }

  /** `{{POST_CONTENT}}` between placeholder-free text renders to the item's
      body (e.g. the snippet of an item that has only a snippet) with that
      text kept, provided the body holds no `$` and the result no
      `{{POST_TITLE_ENCODED}}`: the last replacement acts on the inserted
      body too. */
  lemma RenderContentTag(a: string, b: string, item: Item, encode: string -> string)
    requires NoTags(a) && NoTags(b)
    requires '$' !in Content(item)
    requires !Contains(a + Content(item) + b, EncodedTitleTag)
    ensures Render(a + ContentTag + b, item, encode) == a + Content(item) + b
  {
    var s := a + ContentTag + b;
    TagAbsentAround(a, ContentTag, b, TitleTag);
    TagAbsentAround(a, ContentTag, b, LinkTag);
    ReplaceAllAbsent(s, TitleTag, JsString(item.title));
    ReplaceAllAbsent(s, LinkTag, JsString(item.link));
    TagFacts(ContentTag, ContentTag);
    ReplaceTagAround(a, ContentTag, b, Content(item));
    ReplaceAllAbsent(a + Content(item) + b, EncodedTitleTag, encode(JsString(item.title)));
  }

  /** `{{POST_LINK}}` between placeholder-free text renders to the link with
      that text kept, provided the link holds no `$` and the result none of
      the later placeholders: the later replacements act on the inserted link
      too. An absent link is inserted as `undefined`. */
  lemma RenderLinkTag(a: string, b: string, item: Item, encode: string -> string)
    requires NoTags(a) && NoTags(b)
    requires '$' !in JsString(item.link)
    requires var r := a + JsString(item.link) + b;
      !Contains(r, ContentTag) && !Contains(r, EncodedTitleTag)
    ensures Render(a + LinkTag + b, item, encode) == a + JsString(item.link) + b
  {
    var r := a + JsString(item.link) + b;
    TagAbsentAround(a, LinkTag, b, TitleTag);
    ReplaceAllAbsent(a + LinkTag + b, TitleTag, JsString(item.title));
    TagFacts(LinkTag, LinkTag);
    ReplaceTagAround(a, LinkTag, b, JsString(item.link));
    ReplaceAllAbsent(r, ContentTag, Content(item));
    ReplaceAllAbsent(r, EncodedTitleTag, encode(JsString(item.title)));
  }

  /** `{{POST_TITLE}}` between placeholder-free text renders to the title
      with that text kept, provided the title holds no `$` and the result none
      of the later placeholders: the later replacements act on the inserted
      title too. */
  lemma RenderTitleTag(a: string, b: string, item: Item, encode: string -> string)
    requires NoTags(a) && NoTags(b)
    requires '$' !in JsString(item.title)
    requires var r := a + JsString(item.title) + b;
      !Contains(r, LinkTag) && !Contains(r, ContentTag) && !Contains(r, EncodedTitleTag)
    ensures Render(a + TitleTag + b, item, encode) == a + JsString(item.title) + b
  {
    var title := JsString(item.title);
    var r := a + title + b;
    TagFacts(TitleTag, TitleTag);
    ReplaceTagAround(a, TitleTag, b, title);
    ReplaceAllAbsent(r, LinkTag, JsString(item.link));
    ReplaceAllAbsent(r, ContentTag, Content(item));
    ReplaceAllAbsent(r, EncodedTitleTag, encode(title));
  }

  /** Titles are not inserted literally: `$&` in a title stands for the
      matched placeholder, so a post titled `$&` renders `{{POST_TITLE}}`
      back into the email. */
  lemma DollarTitleNotLiteral(item: Item, encode: string -> string)
    requires item.title == Some("$&")
    ensures Render(TitleTag, item, encode) == TitleTag
  {
    TagsDoNotOverlap();
    assert ReplaceAll(TitleTag, TitleTag, "$&") == TitleTag by {
      assert TitleTag[..|TitleTag|] == TitleTag;
      assert Expand("$&", TitleTag, "", "") == TitleTag;
    }
    ReplaceAllAbsent(TitleTag, LinkTag, JsString(item.link));
    ReplaceAllAbsent(TitleTag, ContentTag, Content(item));
    ReplaceAllAbsent(TitleTag, EncodedTitleTag, encode(JsString(item.title)));
  }
}

=== FILE: pipeline.dfy ===
/** `checkFeedAndSend`: one run of the service. Fetch the feed, load the
    sent list, pick the first item not yet emailed, email it, and only then
    record its identity and save the list. (index.js:80-116)

    Every effect of the run is an input: what the feed fetch, the state file,
    the template file, the mail transport and the state-file write produce
    this time. */
module Pipeline {
  import opened Wrappers
  import opened Items
  import opened SentPosts
  import opened Mail

  /** What the mail transport answers: `{ data }` or `{ error }` (a thrown
      exception is handled the same way). */
  datatype SendOutcome = Accepted | Rejected

  /** The outside world as one run sees it. */
  datatype World = World(
    feed: Option<seq<Item>>,         // None: fetching or parsing the feed failed
    stateFile: Option<seq<string>>,  // None: the state file is missing or unreadable
    template: Option<string>,        // None: the template file cannot be read
    send: SendOutcome,
    saveSucceeds: bool)               // whether writing the state file succeeds

  /** How a run ends. Only `Delivered` and `DeliveredNotRecorded` write the
      state file; the other two leave it as it was. */
  datatype RunResult =
    | NoNewPosts                          // returns normally, nothing sent
    | Aborted(attempted: Option<Email>)   // exit code 1; the email handed to a transport that refused it, if any
    | Delivered(email: Email, saved: seq<string>)  // sent, and `saved` written to the state file
    | DeliveredNotRecorded(email: Email)  // sent, but writing the state file failed (exit code 1)
  {
    /** The state file is written (or a write is attempted). */
    predicate WritesState() {
      Delivered? || DeliveredNotRecorded?
    }

    /** The email handed to the mail transport, if the run got that far. */
    function Attempted(): Option<Email> {
      match this
      case NoNewPosts => None
      case Aborted(a) => a
      case Delivered(e, _) => Some(e)
      case DeliveredNotRecorded(e) => Some(e)
    }
  }

  /** One run of `checkFeedAndSend`. `encode` stands for `encodeURIComponent`. */
  function Run(world: World, encode: string -> string): (r: RunResult)
    ensures r == NoNewPosts <==>
      world.feed.Some? && Pending(world.feed.value, LoadSentPosts(world.stateFile)) == []
    ensures r.WritesState() <==>
      world.feed.Some? && Pending(world.feed.value, LoadSentPosts(world.stateFile)) != [] &&
      world.template.Some? && world.send.Accepted?
    ensures r.Attempted().Some? ==>
      world.feed.Some? && world.template.Some? &&
      Pending(world.feed.value, LoadSentPosts(world.stateFile)) != [] &&
      r.Attempted().value ==
        Compose(world.template.value, Pending(world.feed.value, LoadSentPosts(world.stateFile))[0], encode)
    ensures r.Delivered? ==> world.saveSucceeds
  {
    match world.feed
    case None => Aborted(None)
    case Some(feed) =>
      var sent := LoadSentPosts(world.stateFile);
      var pending := Pending(feed, sent);
      if |pending| == 0 then NoNewPosts
      else
        var post := pending[0];
        match world.template
        case None => Aborted(None)
        case Some(template) =>
          var email := Compose(template, post, encode);
          if world.send.Rejected? then Aborted(Some(email))
          else if !world.saveSucceeds then DeliveredNotRecorded(email)
          else Delivered(email, sent + [Identity(post)])
  }

  /** The items of this run's feed still to be emailed. */
  function PendingIn(world: World): seq<Item>
    requires world.feed.Some?
  {
    Pending(world.feed.value, LoadSentPosts(world.stateFile))
  }

  /** When nothing is pending the run does nothing and succeeds, whatever the
      template, transport and file system would have done; otherwise it
      does not end that way. */
  lemma NoWorkWhenNothingPending(world: World, encode: string -> string)
    requires world.feed.Some?
    ensures Run(world, encode) == NoNewPosts <==> PendingIn(world) == []
    ensures PendingIn(world) == [] <==>
      forall k :: 0 <= k < |world.feed.value| ==>
        Identity(world.feed.value[k]) in LoadSentPosts(world.stateFile)
  {
    PendingEmpty(world.feed.value, LoadSentPosts(world.stateFile));
  }

  /** At most one email per run, and only for the first pending item: a run
      that hands an email to the transport had a feed, a template and a
      pending item, and the email is composed from the first pending one. */
  lemma SendsOnlyFirstPending(world: World, encode: string -> string)
    requires Run(world, encode).Attempted().Some?
    ensures world.feed.Some? && world.template.Some? && PendingIn(world) != []
    ensures Run(world, encode).Attempted().value ==
      Compose(world.template.value, PendingIn(world)[0], encode)
  {
  }

  /** With no state file the first run emails the first feed item. */
  lemma FirstRunSendsFirstItem(world: World, encode: string -> string)
    requires world.feed.Some? && |world.feed.value| > 0
    requires world.stateFile.None?
    requires world.template.Some?
    ensures Run(world, encode).Attempted() ==
      Some(Compose(world.template.value, world.feed.value[0], encode))
  {
    MissingStateAllPending(world.feed.value);
  }

  /** The state file is written only after the transport accepted the email:
      a failed fetch, a missing template or a refused send leave it as loaded,
      and a write is attempted exactly when an email was accepted. */
  lemma RecordOnlyAfterSuccess(world: World, encode: string -> string)
    ensures Run(world, encode).WritesState() <==>
      world.feed.Some? && PendingIn(world) != [] && world.template.Some? && world.send.Accepted?
    ensures world.send == Rejected ==> !Run(world, encode).WritesState()
    ensures world.feed.None? ==> Run(world, encode) == Aborted(None)
    ensures Run(world, encode).Delivered? ==> world.saveSucceeds
  {
  }

  /** A successful run saves the loaded list with the emailed item's identity
      appended at the end: earlier entries are untouched, the new identity was
      not in the list before, so a list without duplicates stays so. */
  lemma DeliveredAppendsIdentity(world: World, encode: string -> string)
    requires Run(world, encode).Delivered?
    ensures world.feed.Some? && PendingIn(world) != []
    ensures var loaded := LoadSentPosts(world.stateFile);
            var saved := Run(world, encode).saved;
            |saved| == |loaded| + 1 && saved[..|loaded|] == loaded &&
            saved[|loaded|] == Identity(PendingIn(world)[0]) &&
            saved[|loaded|] !in loaded &&
            (NoDuplicates(loaded) ==> NoDuplicates(saved))
  {
    var loaded := LoadSentPosts(world.stateFile);
    var post := PendingIn(world)[0];
    assert post in PendingIn(world);
    assert (loaded + [Identity(post)])[..|loaded|] == loaded;
    if NoDuplicates(loaded) {
      AppendFreshNoDuplicates(loaded, Identity(post));
    }
  }

  /** The world of the next run when the feed has not changed and the state
      file holds what this run saved. */
  predicate RerunOf(next: World, world: World, encode: string -> string)
    requires Run(world, encode).Delivered?
  {
    next.feed == world.feed && next.stateFile == Some(Run(world, encode).saved)
  }

  /** After a successful run the emailed item is no longer pending, nor is
      any item with the same identity, and strictly fewer items are pending:
      repeated runs over an unchanged feed never email an identity twice. */
  lemma DeliveredNoLongerPending(world: World, next: World, encode: string -> string)
    requires Run(world, encode).Delivered?
    requires RerunOf(next, world, encode)
    ensures next.feed.Some?
    ensures forall x :: x in PendingIn(next) ==> Identity(x) != Identity(PendingIn(world)[0])
    ensures forall x :: x in PendingIn(next) <==>
      x in PendingIn(world) && Identity(x) != Identity(PendingIn(world)[0])
    ensures |PendingIn(next)| < |PendingIn(world)|
  {
    var post := PendingIn(world)[0];
    assert post in PendingIn(world);
    PendingAfterRecord(world.feed.value, LoadSentPosts(world.stateFile), Identity(post));
  }

  /** When exactly one item was pending, an immediate rerun over the same feed
      finds nothing to send, whatever else happens in it. */
  lemma RerunIsQuiet(world: World, next: World, encode: string -> string)
    requires Run(world, encode).Delivered?
    requires |PendingIn(world)| == 1
    requires RerunOf(next, world, encode)
    ensures Run(next, encode) == NoNewPosts
  {
    DeliveredNoLongerPending(world, next, encode);
  }

  /** When a run's email went out but its write failed and the state file
      was left as it was, the next run over the same feed and template emails
      the same item again. */
  lemma FailedWriteResends(world: World, next: World, encode: string -> string)
    requires Run(world, encode).DeliveredNotRecorded?
    requires next.feed == world.feed && next.stateFile == world.stateFile
    requires next.template == world.template && next.send.Accepted?
    ensures Run(next, encode).WritesState()
    ensures Run(next, encode).Attempted() == Run(world, encode).Attempted()
  {
  }

  /** When the failed write emptied or corrupted the state file instead, the
      next run loads the empty list and emails the first feed item, whichever
      item was just sent: later runs re-send the feed one item per run. */
  lemma FailedWriteEmptiedRestarts(world: World, next: World, encode: string -> string)
    requires Run(world, encode).DeliveredNotRecorded?
    requires next.feed == world.feed && next.stateFile.None?
    requires next.template == world.template && next.send.Accepted?
    ensures world.feed.Some? && |world.feed.value| > 0
    ensures Run(next, encode).WritesState()
    ensures Run(next, encode).Attempted() ==
      Some(Compose(world.template.value, world.feed.value[0], encode))
  {
    MissingStateAllPending(world.feed.value);
  }

  /** `id` is the identity of some item of `feed`. */
  predicate KeyOf(feed: seq<Item>, id: string) {
    exists x :: x in feed && Identity(x) == id
  }

  /** The sent list after up to `n` consecutive runs over an unchanged feed,
      starting from `sent`, in which the template is readable and every send
      and every write succeeds. Each run appends the identity it emailed, so
      every entry past `|sent|` is the identity of a feed item. None of them
      was recorded before or is appended twice, and once `n` reaches the
      number of pending items, nothing is left pending. */
  function Drain(feed: seq<Item>, sent: seq<string>, template: string,
                 encode: string -> string, n: nat): (final: seq<string>)
    ensures |sent| <= |final| <= |sent| + n && final[..|sent|] == sent
    ensures forall i :: |sent| <= i < |final| ==> final[i] !in final[..i]
    ensures forall i :: |sent| <= i < |final| ==> KeyOf(feed, final[i])
    ensures n >= |Pending(feed, sent)| ==> Pending(feed, final) == []
    decreases n
  {
    var world := World(Some(feed), Some(sent), Some(template), Accepted, true);
    if n == 0 then sent
    else
      var r := Run(world, encode);
      if r.Delivered? then
        DrainStep(world, encode);
        var final := Drain(feed, r.saved, template, encode, n - 1);
        ExtendFresh(sent, r.saved, final);
        assert final[|sent|] == r.saved[|sent|];
        final
      else
        NoWorkWhenNothingPending(world, encode);
        sent
  }

  /** One successful run inside `Drain`: the saved list extends the loaded
      one by a single identity of a feed item that it did not hold, and fewer
      items are pending against it. */
  lemma DrainStep(world: World, encode: string -> string)
    requires Run(world, encode).Delivered?
    requires world.stateFile.Some?
    ensures world.feed.Some?
    ensures var sent, saved := world.stateFile.value, Run(world, encode).saved;
            |saved| == |sent| + 1 && saved[..|sent|] == sent && saved[|sent|] !in sent &&
            |Pending(world.feed.value, saved)| < |Pending(world.feed.value, sent)| &&
            KeyOf(world.feed.value, saved[|sent|])
  {
    DeliveredAppendsIdentity(world, encode);
    var post := PendingIn(world)[0];
    assert post in PendingIn(world);
    var next := world.(stateFile := Some(Run(world, encode).saved));
    DeliveredNoLongerPending(world, next, encode);
  }

  /** A list whose entries past `|saved|` are each new, extending `saved`,
      which extends `sent` by one new entry, has every entry past `|sent|` new. */
  lemma ExtendFresh(sent: seq<string>, saved: seq<string>, final: seq<string>)
    requires |saved| == |sent| + 1 && saved[..|sent|] == sent && saved[|sent|] !in sent
    requires |saved| <= |final| && final[..|saved|] == saved
    requires forall i :: |saved| <= i < |final| ==> final[i] !in final[..i]
    ensures final[..|sent|] == sent
    ensures forall i :: |sent| <= i < |final| ==> final[i] !in final[..i]
  {
    assert final[..|sent|] == saved[..|sent|];
    assert final[..|sent|] == sent;
    assert final[|sent|] == saved[|sent|];
  }
}

=== FILE: sent_posts.dfy ===
/** The list of identities already emailed (the `sent-posts.json` state file)
    and the selection of feed items not yet emailed.
    (index.js:16-29, index.js:88-91, index.js:105) */
module SentPosts {
  import opened Wrappers
  import opened Items

  /** `loadSentPosts`: the parsed state file, or the empty list when the file is
      missing or cannot be read or parsed (`None`). */
  function LoadSentPosts(file: Option<seq<string>>): (sent: seq<string>)
    ensures file.None? ==> sent == []
    ensures file.Some? ==> sent == file.value
  {
    file.GetOr([])
  }

  /** The pending filter of a run: the feed items whose identity the sent
      list does not include, in feed order. */
  function Pending(feed: seq<Item>, sent: seq<string>): (r: seq<Item>)
    ensures |r| <= |feed|
    ensures forall x :: x in r <==> x in feed && Identity(x) !in sent
  {
    if |feed| == 0 then []
    else if Identity(feed[0]) in sent then Pending(feed[1..], sent)
    else [feed[0]] + Pending(feed[1..], sent)
  }

  /** The filter works item by item: pending items of a concatenated feed are
      the pending items of each part, in order. With `PendingSingle` this pins
      `Pending` down as the order-preserving filter. */
  lemma {:induction false} PendingAppend(a: seq<Item>, b: seq<Item>, sent: seq<string>)
    ensures Pending(a + b, sent) == Pending(a, sent) + Pending(b, sent)
    decreases |a|
  {
    if |a| == 0 {
      assert a + b == b;
    } else {
      assert (a + b)[1..] == a[1..] + b;
      PendingAppend(a[1..], b, sent);
    }
  }

  /** A one-item feed is pending exactly when its identity is unrecorded. */
  lemma PendingSingle(x: Item, sent: seq<string>)
    ensures Pending([x], sent) == if Identity(x) in sent then [] else [x]
  {
  }

  /** Nothing is pending exactly when every item's identity is recorded. */
  lemma PendingEmpty(feed: seq<Item>, sent: seq<string>)
    ensures Pending(feed, sent) == [] <==> forall k :: 0 <= k < |feed| ==> Identity(feed[k]) in sent
  {
    if Pending(feed, sent) != [] {
      var x := Pending(feed, sent)[0];
      assert x in Pending(feed, sent);
    }
  }

  /** With a missing or unreadable state file, every feed item is pending. */
  lemma {:induction false} MissingStateAllPending(feed: seq<Item>)
    ensures Pending(feed, LoadSentPosts(None)) == feed
    decreases |feed|
  {
    if |feed| > 0 {
      MissingStateAllPending(feed[1..]);
    }
  }

  /** No identity is recorded twice. */
  predicate NoDuplicates(sent: seq<string>) {
    forall i, j :: 0 <= i < j < |sent| ==> sent[i] != sent[j]
  }

  /** Appending an identity that is not yet recorded keeps the list free of duplicates. */
  lemma AppendFreshNoDuplicates(sent: seq<string>, id: string)
    requires NoDuplicates(sent)
    requires id !in sent
    ensures NoDuplicates(sent + [id])
  {
  }

  /** Recording `id` removes exactly the pending items with that identity and
      keeps the others in order; when one of them had that identity the
      pending list gets strictly shorter. */
  lemma {:induction false} PendingAfterRecord(feed: seq<Item>, sent: seq<string>, id: string)
    ensures forall x :: x in Pending(feed, sent + [id]) <==> x in Pending(feed, sent) && Identity(x) != id
    ensures |Pending(feed, sent + [id])| <= |Pending(feed, sent)|
    ensures (exists x :: x in Pending(feed, sent) && Identity(x) == id) ==>
      |Pending(feed, sent + [id])| < |Pending(feed, sent)|
    decreases |feed|
  {
    if |feed| > 0 {
      PendingAfterRecord(feed[1..], sent, id);
      if Identity(feed[0]) == id && Identity(feed[0]) !in sent {
        assert Pending(feed, sent) == [feed[0]] + Pending(feed[1..], sent);
        assert Pending(feed, sent + [id]) == Pending(feed[1..], sent + [id]);
      }
    }
  }
}

=== FILE: wrappers.dfy ===
/** Values that JavaScript may leave `undefined`, and I/O steps that may fail. */
module Wrappers {

  /** `Some(v)`: a field that is present, or an I/O step that produced `v`.
      `None`: a field that is `undefined`, or an I/O step that failed. */
  datatype Option<+T> = None | Some(value: T) {

    /** The fallback a caller uses for a missing value, as the state loader
        falls back to the empty list. */
    function GetOr(default: T): T {
      if Some? then value else default
    }
  }
}
